=== FILE: README.md ===
# Portfolio admin: a Dafny model of the project, navigation and content editors

This project models the data-handling core of a Next.js portfolio site with
an admin area. The core consists of five parts:

- **The projects REST handler** (`app/api/projects/route.ts`). POST gives a
  new project the id `Math.max(...ids, 0) + 1` and appends it. PUT replaces
  the first project whose id matches, or answers 404 "Project not found".
  DELETE filters out every project with the id and always reports success.
  The JSON file is replaced by the list passed in and the list returned
  (`ProjectStore`).
- **The project list screen** (`app/admin/projects/page.tsx`). It loads the
  list with `data.projects || []`. After a confirmed, successful DELETE it
  filters its own copy of the list. The client filter is written as a loop
  and proved equal to the server's filter (`ProjectsAdmin`).
- **The new-project form** (`app/admin/projects/new/page.tsx`). This covers
  the empty draft and the tag editor. Adding a tag uses `trim`, with the
  ECMAScript whitespace set. Removing a tag removes it by value
  (`NewProjectForm`, `JsStrings`).
- **The navigation editor** (`app/admin/navbar/page.tsx`). This covers the
  five default items and the load of the saved configuration, with
  JavaScript truthiness and `Array.isArray`. It also covers the name and
  item edits and the removal by id. Adding an item uses the id
  `String(length + 1)` (`Navbar`, `JsStrings`).
- **The site-content editor** (`app/admin/content/page.tsx`). Every input
  writes a nested spread of one text leaf or one style member. The
  skill-category, proficiency-category, skill, contact-item, social-link
  and footer-link lists are edited by index: push, `copy[i] = …`, and `filter((_, i) => i !== index)`.
  Style inputs fall back to `|| 10` and `|| 'var(--color-primary)'`. Submit
  sends nothing while no document is loaded (`ContentEditor`).

`Seqs` holds the shared list primitives. `Filter` models
`Array.prototype.filter`, with lemmas for concatenation, singletons,
multiset counts and idempotence. `ReplaceAt` and `RemoveAt` are the
index-based edits. `Appended`, `Replaced` and `Removed` state pointwise
what each edit did to a list. `Wrappers.Option` models a value that may be
`undefined`.

## Model

| member | source | states |
|---|---|---|
| Seqs.Filter | app/api/projects/route.ts:77 | The result is no longer than the input. A value is in the result exactly when it is in the input and passes the predicate. |
| Seqs.FilterAppend | app/api/projects/route.ts:77 | Filtering a concatenation is the concatenation of the filtered parts, so survivors keep their relative order. |
| Seqs.FilterCount | app/api/projects/route.ts:77 | A kept value keeps every copy it had. A dropped value has no copy left. |
| Seqs.FilterSingleton | app/api/projects/route.ts:77 | A one-element list is kept or dropped as a whole. |
| Seqs.FilterKeepsAll | app/api/projects/route.ts:77 | When every element passes, the list comes back unchanged. |
| Seqs.FilterIdempotent | app/api/projects/route.ts:77 | Filtering a second time by the same predicate changes nothing. |
| Seqs.ReplaceAt | app/admin/content/page.tsx:760-770 | Position i holds the new value, every other position is untouched, and the multiset loses `s[i]` and gains the new value. |
| Seqs.RemoveAt | app/admin/content/page.tsx:777-785 | Elements before i stay put and later ones shift down by one. The multiset loses exactly one copy of `s[i]`. |
| Seqs.RemoveAtKeepsDuplicates | app/admin/content/page.tsx:778 | Removing by position keeps an equal value held at another position, which removing by value would not. |
| JsStrings.IsWhitespace | app/admin/projects/new/page.tsx:53 | The characters `trim` strips are the ECMAScript WhiteSpace and LineTerminator code points. Among ASCII characters these are exactly tab, line feed, vertical tab, form feed, carriage return and space, and no letter or digit is one. |
| JsStrings.TrimStart | app/admin/projects/new/page.tsx:53 | The result is a suffix of the input, everything cut off is whitespace, and the result does not start with whitespace. |
| JsStrings.TrimEnd | app/admin/projects/new/page.tsx:53 | The result is a prefix of the input, everything cut off is whitespace, and the result does not end with whitespace. |
| JsStrings.Trim | app/admin/projects/new/page.tsx:53-56 | The result is a contiguous slice with only whitespace before and after it. A non-empty result neither starts nor ends with whitespace. |
| JsStrings.TrimParts | app/admin/projects/new/page.tsx:53 | Cutting a blank prefix and then a blank suffix leaves a slice with blanks on both sides. |
| JsStrings.TrimEmptyIffBlank | app/admin/projects/new/page.tsx:53 | `!newTag.trim()` holds exactly when the input is all whitespace or empty. |
| JsStrings.TrimIdempotent | app/admin/projects/new/page.tsx:54-57 | Trimming an already trimmed tag changes nothing. |
| JsStrings.DigitChar | app/admin/navbar/page.tsx:50 | The character of digit d is a decimal digit whose code is `'0' + d`. |
| JsStrings.DigitValue | app/admin/navbar/page.tsx:50 | It is the inverse of DigitChar on decimal digit characters. |
| JsStrings.DecimalString | app/admin/navbar/page.tsx:50 | `String(n)` is non-empty, all decimal digits, and without a leading zero unless it is "0". |
| JsStrings.ParseDecimal | app/admin/navbar/page.tsx:50 | A value exists exactly for non-empty strings of decimal digits. |
| JsStrings.ParseDecimalString | app/admin/navbar/page.tsx:50 | Parsing `String(n)` gives back n. |
| JsStrings.DecimalStringInjective | app/admin/navbar/page.tsx:50 | Distinct numbers print as distinct ids. |
| ProjectStore.MaxId | app/api/projects/route.ts:28 | `Math.max(...ids, 0)` is non-negative and at least every id. It is 0 or the id of some project. |
| ProjectStore.NextId | app/api/projects/route.ts:28 | The new id exceeds every stored id, and it is either 1 or one more than a stored id. So it is exactly `max(ids ∪ {0}) + 1`, which is 1 on an empty list. |
| ProjectStore.Post | app/api/projects/route.ts:21-34 | Status 200. The echoed project is the request body with only its id changed, to NextId of the stored list, which is fresh. The file holds the old list with that project appended. |
| ProjectStore.PostIgnoresClientId | app/api/projects/route.ts:28-29 | The assigned id depends only on the stored list, never on the id the client sent. |
| ProjectStore.FindIndex | app/api/projects/route.ts:50 | The result is -1 exactly when no project has the id. Otherwise it is the first position that has it. |
| ProjectStore.Put | app/api/projects/route.ts:44-61 | The status is 404 exactly when no project has the body's id, and then the file is untouched with the error "Project not found". Otherwise the status is 200, the body is echoed, and only the first matching position is replaced. |
| ProjectStore.Delete | app/api/projects/route.ts:71-80 | Success is always reported. A project remains exactly when it was stored and has a different id. |
| ProjectStore.DeleteKeepsOrder | app/api/projects/route.ts:77 | Delete distributes over concatenation and keeps or drops each single project, so survivors keep their order. Every copy of another id's project survives. |
| ProjectStore.DeleteSnoc | app/api/projects/route.ts:77 | Deleting from a list grown by one project gives the old survivors, followed by the new project if it survives. |
| ProjectStore.DeleteAbsentIsIdentity | app/api/projects/route.ts:77 | Deleting an id nobody holds leaves the file unchanged. |
| ProjectStore.DeleteIdempotent | app/api/projects/route.ts:77 | A repeated DELETE of the same id changes nothing more. |
| ProjectStore.PostPreservesUniqueIds | app/api/projects/route.ts:28-31 | POST keeps project ids pairwise distinct. |
| ProjectStore.PutPreservesUniqueIds | app/api/projects/route.ts:50-58 | PUT keeps project ids pairwise distinct. |
| ProjectStore.FilterPreservesUniqueIds | app/api/projects/route.ts:77 | Any filter of a list with distinct ids keeps them distinct. |
| ProjectStore.DeletePreservesUniqueIds | app/api/projects/route.ts:77 | DELETE keeps project ids pairwise distinct. |
| ProjectsAdmin.InitialPage | app/admin/projects/page.tsx:16-18 | The screen starts with no projects, loading, and no error. |
| ProjectsAdmin.AfterFetch | app/admin/projects/page.tsx:20-35 | Loading always ends. A failed fetch shows the error and keeps the list. A successful one clears the error and shows `data.projects`, or an empty list when that is missing. |
| ProjectsAdmin.DropProject | app/admin/projects/page.tsx:56-57 | The client's filtered copy equals the list the server DELETE leaves for the same input, and no survivor has the id. |
| ProjectsAdmin.HandleDelete | app/admin/projects/page.tsx:41-63 | Without confirmation, or after a failed response, the screen is unchanged. Otherwise the local list becomes the list the server's DELETE leaves when given the client's copy, and it holds no project with the id. |
| NewProjectForm.InitialForm | app/admin/projects/new/page.tsx:16-23 | The draft starts with empty text fields, no tags and an empty tag input. |
| NewProjectForm.AddTag | app/admin/projects/new/page.tsx:52-59 | A blank input changes nothing. Otherwise the non-empty trimmed text is appended, the other fields are kept, and the input is cleared. |
| NewProjectForm.RemoveTag | app/admin/projects/new/page.tsx:61-66 | The other fields are kept and the removed tag is gone. A tag remains exactly when it was present and differs from the removed one. |
| NewProjectForm.RemoveTagCounts | app/admin/projects/new/page.tsx:64 | Every other tag keeps all its copies and the removed one keeps none. Removal distributes over concatenation, so order is kept. |
| NewProjectForm.AddThenRemove | app/admin/projects/new/page.tsx:52-66 | Removing the trimmed input after pressing Add restores the tag list, if that tag was not already present. A blank input adds nothing and removes nothing. |
| Navbar.Truthy | app/admin/navbar/page.tsx:29 | `if (name)` is false exactly for undefined, null, false, 0 and the empty string. |
| Navbar.DefaultItems | app/admin/navbar/page.tsx:15-21 | There are five items with ids "1"…"5" in order, starting at "/" and ending at "#contact". |
| Navbar.InitialEditor | app/admin/navbar/page.tsx:13-21 | The editor starts with the theme's name and the default items. |
| Navbar.DenseIdsAreUnique | app/admin/navbar/page.tsx:50 | Ids "1"…"n" in order are pairwise distinct. |
| Navbar.DefaultIdsAreUnique | app/admin/navbar/page.tsx:15-21 | The five default ids are distinct. |
| Navbar.LoadSaved | app/admin/navbar/page.tsx:23-35 | Nothing saved leaves the editor unchanged. A truthy saved name replaces the name, and an array of items replaces the list. Anything else keeps the current value. |
| Navbar.Save | app/admin/navbar/page.tsx:58-64 | The stored `name` member is the current name, and the `items` member is an array holding exactly the current items. |
| Navbar.SaveThenLoad | app/admin/navbar/page.tsx:23-35 | Reloading what was saved restores the editor, except that a falsy saved name keeps the name that was showing. |
| Navbar.ChangeName | app/admin/navbar/page.tsx:37-39 | Only the name changes. |
| Navbar.SetField | app/admin/navbar/page.tsx:44 | `{ ...item, [field]: value }` sets that field and keeps the id and the other field. |
| Navbar.ChangeItem | app/admin/navbar/page.tsx:41-47 | Length and ids are kept, items with other ids are untouched, and every item with the id gets the field set. |
| Navbar.ChangeItemKeepsIds | app/admin/navbar/page.tsx:41-47 | Changing a field keeps ids unique and keeps ids "1"…"n" dense, since no id is touched. |
| Navbar.RemoveItem | app/admin/navbar/page.tsx:54-56 | An item remains exactly when it was present and has a different id. |
| Navbar.RemoveItemKeepsOrder | app/admin/navbar/page.tsx:55 | Removal distributes over concatenation and keeps or drops single items. |
| Navbar.AddItem | app/admin/navbar/page.tsx:49-52 | As written, it appends `{id: String(length + 1), href: '#new', label: 'New Item'}` and leaves the rest as it was. |
| Navbar.AddKeepsDenseIds | app/admin/navbar/page.tsx:49-52 | On a list nobody has removed from, the length-based id keeps ids dense and unique. |
| Navbar.AddAfterRemoveDuplicatesId | app/admin/navbar/page.tsx:49-56 | Removing "1" from the defaults and then adding gives two items with id "5". Relabelling the new one also relabels "Contact". |
| Navbar.RemoveLeadingItem | app/admin/navbar/page.tsx:55 | Removing the first item's id, when no other item has it, drops just that item. |
| Navbar.RemoveFirstDefault | app/admin/navbar/page.tsx:15-21 | Removing "1" from the defaults leaves the other four in order. |
| Navbar.MaxNumericId | app/admin/navbar/page.tsx:50 | The result is at least every id that reads as a decimal number. |
| Navbar.MaxNumericIdOfDense | app/admin/navbar/page.tsx:50 | On ids "1"…"n" the largest numeric id is n. |
| Navbar.AddItemFresh | app/admin/navbar/page.tsx:49-52 | The corrected add appends a new item whose id no existing item holds. |
| Navbar.AddItemFreshKeepsUniqueIds | app/admin/navbar/page.tsx:49-52 | The corrected add keeps ids unique on every list, whether or not items were removed. |
| Navbar.AddItemFreshAgreesOnDense | app/admin/navbar/page.tsx:49-52 | On a list nobody has removed from, the corrected add and the as-written add give the same result. |
| ContentEditor.ContentExtensionality | app/admin/content/page.tsx:219-225 | Two documents that agree on every text input and on everything else are equal, so the text inputs and the rest cover the whole document. |
| ContentEditor.SameHero | app/admin/content/page.tsx:219-373 | Agreement on the hero inputs makes the hero sections equal. |
| ContentEditor.SameAbout | app/admin/content/page.tsx:389-504 | Agreement on the about inputs, the about title and the icon styles makes the about sections equal. |
| ContentEditor.SameFooter | app/admin/content/page.tsx:1359-1551 | Agreement on the footer inputs and links makes the footers equal. |
| ContentEditor.Set | app/admin/content/page.tsx:219-225 | A text input's nested spread sets its own leaf. Every other text leaf, list and style is kept. |
| ContentEditor.SetSameValueIsIdentity | app/admin/content/page.tsx:219-225 | Writing back the value an input shows leaves the document unchanged. |
| ContentEditor.SetTwiceLastWins | app/admin/content/page.tsx:219-225 | Of two edits to one input, the last one wins. |
| ContentEditor.SetDistinctCommute | app/admin/content/page.tsx:219-244 | Edits to two different inputs commute. |
| ContentEditor.ApplyStyle | app/admin/content/page.tsx:519-529 | `{...styles, member: value}` sets that member and keeps the others. A missing block counts as having no members. |
| ContentEditor.EditStyle | app/admin/content/page.tsx:616-672 | A style input changes one member of its own block. The other block, all text, the hero, the footer, the about title and all lists are kept. An icon edit leaves `projects` as it was, even when absent. A tag edit leaves the about section as it was and makes `projects` hold just the edited tag styles. |
| ContentEditor.ShownOpacity | app/admin/content/page.tsx:542 | `backgroundOpacity \|\| 10` is never 0. It shows the stored value when that is present and non-zero, and 10 otherwise. |
| ContentEditor.ShownColor | app/admin/content/page.tsx:519 | `color \|\| 'var(--color-primary)'` is never empty. It shows the stored colour when that is present and non-empty, and the default otherwise. |
| ContentEditor.OpacityShownAfterEdit | app/admin/content/page.tsx:542-552 | A typed opacity is stored. It is shown back unless it is 0, which then shows as 10. |
| ContentEditor.SetCategoryField | app/admin/content/page.tsx:760-770 | It sets the chosen field of a category and keeps the other two. |
| ContentEditor.AddSkillCategory | app/admin/content/page.tsx:731-744 | It appends the default category. The rest of the document is unchanged. |
| ContentEditor.EditSkillCategory | app/admin/content/page.tsx:799-808 | Only position i is replaced, by the edited category. The rest of the document is unchanged. |
| ContentEditor.RemoveSkillCategory | app/admin/content/page.tsx:777-785 | Exactly position i is removed. The rest of the document is unchanged. |
| ContentEditor.RemoveUndoesAddSkillCategory | app/admin/content/page.tsx:731-785 | Removing the newly added category restores the document. |
| ContentEditor.SetTechField | app/admin/content/page.tsx:880-893 | It sets the name or icon of a proficiency category and keeps its skills. |
| ContentEditor.AddTechCategory | app/admin/content/page.tsx:849-866 | It appends an empty proficiency category. The rest is unchanged. |
| ContentEditor.EditTechCategory | app/admin/content/page.tsx:901-914 | Only category i is replaced, and its skills are kept. The rest is unchanged. |
| ContentEditor.RemoveTechCategory | app/admin/content/page.tsx:923-936 | Exactly category i is removed. The rest is unchanged. |
| ContentEditor.RemoveUndoesAddTechCategory | app/admin/content/page.tsx:849-936 | Removing the newly added proficiency category restores the document. |
| ContentEditor.ApplySkillEdit | app/admin/content/page.tsx:951-992 | It sets a skill's name or percentage and keeps the other. |
| ContentEditor.AddSkill | app/admin/content/page.tsx:1022-1037 | `{name: '', percentage: 50}` is appended to category ci only. The other categories, and ci's name and icon, are kept. |
| ContentEditor.EditSkill | app/admin/content/page.tsx:977-992 | Only skill si of category ci changes, and nothing else in the document. |
| ContentEditor.RemoveSkill | app/admin/content/page.tsx:998-1012 | Exactly skill si of category ci is removed, and nothing else in the document changes. |
| ContentEditor.RemoveUndoesAddSkill | app/admin/content/page.tsx:998-1037 | Removing the newly added skill restores the document. |
| ContentEditor.SetItemField | app/admin/content/page.tsx:1135-1186 | It sets one field of a contact item and keeps the other two. |
| ContentEditor.AddContactItem | app/admin/content/page.tsx:1104-1118 | It appends the default contact item. The rest is unchanged. |
| ContentEditor.EditContactItem | app/admin/content/page.tsx:1135-1186 | Only item i is replaced. The rest is unchanged. |
| ContentEditor.RemoveContactItem | app/admin/content/page.tsx:1191-1200 | Exactly item i is removed. The rest is unchanged. |
| ContentEditor.RemoveUndoesAddContactItem | app/admin/content/page.tsx:1104-1200 | Removing the newly added contact item restores the document. |
| ContentEditor.SetLinkField | app/admin/content/page.tsx:1249-1320 | It sets one field of a social link and keeps the other three. |
| ContentEditor.AddSocialLink | app/admin/content/page.tsx:1218-1233 | It appends the default social link. The rest is unchanged. |
| ContentEditor.EditSocialLink | app/admin/content/page.tsx:1249-1320 | Only link i is replaced. The rest is unchanged. |
| ContentEditor.RemoveSocialLink | app/admin/content/page.tsx:1326-1335 | Exactly link i is removed. The rest is unchanged. |
| ContentEditor.RemoveUndoesAddSocialLink | app/admin/content/page.tsx:1218-1335 | Removing the newly added social link restores the document. |
| ContentEditor.SetBottomField | app/admin/content/page.tsx:1487-1516 | It sets the label or url of a footer link and keeps the other. |
| ContentEditor.AddBottomLink | app/admin/content/page.tsx:1463-1473 | It appends `{label: '', url: ''}`. The rest is unchanged. |
| ContentEditor.EditBottomLink | app/admin/content/page.tsx:1487-1516 | Only footer link i is replaced. The rest is unchanged. |
| ContentEditor.RemoveBottomLink | app/admin/content/page.tsx:1523-1532 | Exactly footer link i is removed. The rest is unchanged. |
| ContentEditor.RemoveUndoesAddBottomLink | app/admin/content/page.tsx:1463-1532 | Removing the newly added footer link restores the document. |
| ContentEditor.Submit | app/admin/content/page.tsx:132-144 | No request is sent exactly when no document is loaded. Otherwise the PUT body is the document. |

## Left out

- File, network and storage I/O is replaced by values passed in and returned. This covers `fs.readFileSync`/`writeFileSync`, `fetch`, `localStorage`, `JSON.parse`/`stringify`, `alert`, `confirm` and router navigation. The outcome of `confirm` and of the response is a parameter.
- The 500 responses of the route handlers are left out. They come from file I/O and JSON parse failures, and from a file without a `projects` array, where `data.projects.map`, `findIndex` or `filter` throws. A request body of `null` throws in all three handlers, at `newProject.id = newId`, `updatedProject.id` and `const { id } = …`. A number body throws only in POST, where the assignment to `id` fails in strict mode.
- Request bodies without a usable id are left out. A number body, or an object with no `id` member, reads `id` as `undefined`. PUT then answers 404 "Project not found" (unless a stored project also lacks an id), and DELETE reports success and removes only the stored projects that also lack an id (none in a file that only POST wrote). The typed `Project` and its `int` id cannot represent a missing id.
- The GET handlers of the routes are left out, because they only read the file.
- The content and theme routes and the theme context are left out, because they only read and write files or the browser, apart from the theme context's `colors && name` truthiness guard on a saved theme, which is of the same kind as Navbar.LoadSaved's.
- The theme page is left out. Its edits are single-key record updates such as `{...theme, colors: {...theme.colors, [key]: value}}`, of the same kind as ContentEditor.Set and ContentEditor.ApplyStyle, so modelling them would repeat those laws for another record.
- The concurrency of overlapping requests is left out. Each handler runs to completion on the list it is given, so a lost update between two concurrent writes is not modelled.
- Project ids are modelled as unbounded integers. JavaScript numbers that are doubles, NaN or non-numeric ids (for which `Math.max` gives NaN) are not modelled.
- ProjectStore.NextId: once a stored id is at least 2^53, `Math.max(...) + 1` rounds back to that id in double arithmetic, so POST would repeat it. The freshness of NextId and ProjectStore.PostPreservesUniqueIds hold only because the model's integers are unbounded.
- ContentEditor.ShownOpacity: `Number(e.target.value)` is modelled as the integer typed, and the `/ 100` of the preview is not modelled, because floating point is outside the model.
- Navbar.LoadSaved: a saved `items` array is taken to hold navigation items. The page does not check the elements either.
- Text inputs that only set a value on an element which already exists in a list are modelled by the list edits. Inputs outside the five named editors are not modelled.
- Presentational components, styling classes and the 3D background are left out, because they hold no data logic.
- The edit-project page is not part of this model.

## Findings

| source | as written | input that shows it | evidently intended | confidence | as-written member | corrected member |
|---|---|---|---|---|---|---|
| app/admin/navbar/page.tsx:50 | `addNavItem` gives the new item the id `String(navItems.length + 1)` | Start from the five defaults, remove "1", then add. The new item gets id "5", which "Contact" already holds, so editing either item (keyed by id) edits both. | New items get an id that no current item holds | not executed | Navbar.AddAfterRemoveDuplicatesId | Navbar.AddItemFreshKeepsUniqueIds |

=== FILE: content_editor.dfy ===
/**
 The site-content editor of the admin area. The whole `content.json`
 document is one immutable value; every input of the form replaces it
 with a copy that differs in one text leaf, one style member, or one
 element of one of the nested lists.
 */
module ContentEditor {
  import opened Wrappers
  import Seqs

  // ----- The document -----

  datatype Title = Title(part1: string, part2: string)
  datatype Cta = Cta(text: string, link: string)
  datatype CallsToAction = CallsToAction(primary: Cta, secondary: Cta)
  datatype Hero = Hero(title: Title, description: string, cta: CallsToAction, image: string)

  /**
   The colour settings behind an icon or a tag (`iconStyles`, `tagStyles`);
   each member may be missing from the stored document. `foreground` is
   `iconColor` for icons and `textColor` for tags.
   */
  datatype Swatch = Swatch(backgroundColor: Option<string>, backgroundOpacity: Option<int>, foreground: Option<string>)

  datatype About = About(
    title: string, name: string, content: string, image: string, education: string,
    location: string, interests: string, experience: string, subtitle: string,
    iconStyles: Option<Swatch>)

  datatype ProjectsSection = ProjectsSection(tagStyles: Option<Swatch>)

  datatype SkillCategory = SkillCategory(name: string, icon: string, color: string)
  datatype Skill = Skill(name: string, percentage: int)
  datatype TechCategory = TechCategory(name: string, icon: string, skills: seq<Skill>)
  datatype Proficiencies = Proficiencies(title: string, categories: seq<TechCategory>)
  datatype Skills = Skills(title: string, skillCategories: seq<SkillCategory>, technicalProficiencies: Proficiencies)

  datatype ContactItem = ContactItem(icon: string, labelText: string, value: string)
  datatype SocialLink = SocialLink(name: string, icon: string, url: string, color: string)
  datatype Contact = Contact(
    title: string, subtitle: string, description: string, email: string, phone: string,
    location: string, contactItems: seq<ContactItem>, socialLinks: seq<SocialLink>)

  datatype Social = Social(linkedin: string, github: string, instagram: string, twitter: string)
  datatype BottomLink = BottomLink(labelText: string, url: string)
  datatype Footer = Footer(title: string, subtitle: string, social: Social, bottomLinks: seq<BottomLink>, copyright: string)

  /** The `projects` section may be missing altogether (the form reads it through `?.`). */
  datatype Content = Content(
    hero: Hero, about: About, projects: Option<ProjectsSection>,
    skills: Skills, contact: Contact, footer: Footer)

  // ----- Text inputs -----

  /** Every plain text input of the form, named after the leaf it edits. */
  datatype TextField =
    | HeroTitlePart1 | HeroTitlePart2 | HeroDescription
    | HeroPrimaryText | HeroPrimaryLink | HeroSecondaryText | HeroSecondaryLink | HeroImage
    | AboutImage | AboutName | AboutSubtitle | AboutContent
    | AboutEducation | AboutLocation | AboutInterests | AboutExperience
    | SkillsTitle
    | ContactTitle | ContactSubtitle | ContactDescription
    | FooterTitle | FooterSubtitle
    | FooterLinkedin | FooterGithub | FooterInstagram | FooterTwitter | FooterCopyright

  /** The leaf a text input shows. */
  function Get(c: Content, f: TextField): string
  {
    match f
    case HeroTitlePart1 => c.hero.title.part1
    case HeroTitlePart2 => c.hero.title.part2
    case HeroDescription => c.hero.description
    case HeroPrimaryText => c.hero.cta.primary.text
    case HeroPrimaryLink => c.hero.cta.primary.link
    case HeroSecondaryText => c.hero.cta.secondary.text
    case HeroSecondaryLink => c.hero.cta.secondary.link
    case HeroImage => c.hero.image
    case AboutImage => c.about.image
    case AboutName => c.about.name
    case AboutSubtitle => c.about.subtitle
    case AboutContent => c.about.content
    case AboutEducation => c.about.education
    case AboutLocation => c.about.location
    case AboutInterests => c.about.interests
    case AboutExperience => c.about.experience
    case SkillsTitle => c.skills.title
    case ContactTitle => c.contact.title
    case ContactSubtitle => c.contact.subtitle
    case ContactDescription => c.contact.description
    case FooterTitle => c.footer.title
    case FooterSubtitle => c.footer.subtitle
    case FooterLinkedin => c.footer.social.linkedin
    case FooterGithub => c.footer.social.github
    case FooterInstagram => c.footer.social.instagram
    case FooterTwitter => c.footer.social.twitter
    case FooterCopyright => c.footer.copyright
  }

  /** Everything no text input reaches: styles, lists and the leaves the form does not show. */
  predicate SameBeyondText(a: Content, b: Content)
  {
    && a.about.title == b.about.title
    && a.about.iconStyles == b.about.iconStyles
    && a.projects == b.projects
    && a.skills.skillCategories == b.skills.skillCategories
    && a.skills.technicalProficiencies == b.skills.technicalProficiencies
    && a.contact.email == b.contact.email
    && a.contact.phone == b.contact.phone
    && a.contact.location == b.contact.location
    && a.contact.contactItems == b.contact.contactItems
    && a.contact.socialLinks == b.contact.socialLinks
    && a.footer.bottomLinks == b.footer.bottomLinks
  }

  /** Two documents that agree beyond the text inputs and on every text input are the same document. */
  lemma ContentExtensionality(a: Content, b: Content)
    requires SameBeyondText(a, b)
    requires forall f :: Get(a, f) == Get(b, f)
    ensures a == b
  {
    SameHero(a, b);
    SameAbout(a, b);
    assert Get(a, SkillsTitle) == Get(b, SkillsTitle);
    assert Get(a, ContactTitle) == Get(b, ContactTitle) && Get(a, ContactSubtitle) == Get(b, ContactSubtitle);
    assert Get(a, ContactDescription) == Get(b, ContactDescription);
    SameFooter(a, b);
  }

  lemma SameHero(a: Content, b: Content)
    requires forall f :: Get(a, f) == Get(b, f)
    ensures a.hero == b.hero
  {
    assert Get(a, HeroTitlePart1) == Get(b, HeroTitlePart1) && Get(a, HeroTitlePart2) == Get(b, HeroTitlePart2);
    assert Get(a, HeroPrimaryText) == Get(b, HeroPrimaryText) && Get(a, HeroPrimaryLink) == Get(b, HeroPrimaryLink);
    assert Get(a, HeroSecondaryText) == Get(b, HeroSecondaryText) && Get(a, HeroSecondaryLink) == Get(b, HeroSecondaryLink);
    assert Get(a, HeroDescription) == Get(b, HeroDescription) && Get(a, HeroImage) == Get(b, HeroImage);
  }

  lemma SameAbout(a: Content, b: Content)
    requires a.about.title == b.about.title && a.about.iconStyles == b.about.iconStyles
    requires forall f :: Get(a, f) == Get(b, f)
    ensures a.about == b.about
  {
    assert Get(a, AboutImage) == Get(b, AboutImage) && Get(a, AboutName) == Get(b, AboutName);
    assert Get(a, AboutSubtitle) == Get(b, AboutSubtitle) && Get(a, AboutContent) == Get(b, AboutContent);
    assert Get(a, AboutEducation) == Get(b, AboutEducation) && Get(a, AboutLocation) == Get(b, AboutLocation);
    assert Get(a, AboutInterests) == Get(b, AboutInterests) && Get(a, AboutExperience) == Get(b, AboutExperience);
  }

  lemma SameFooter(a: Content, b: Content)
    requires a.footer.bottomLinks == b.footer.bottomLinks
    requires forall f :: Get(a, f) == Get(b, f)
    ensures a.footer == b.footer
  {
    assert Get(a, FooterTitle) == Get(b, FooterTitle) && Get(a, FooterSubtitle) == Get(b, FooterSubtitle);
    assert Get(a, FooterLinkedin) == Get(b, FooterLinkedin) && Get(a, FooterGithub) == Get(b, FooterGithub);
    assert Get(a, FooterInstagram) == Get(b, FooterInstagram) && Get(a, FooterTwitter) == Get(b, FooterTwitter);
    assert Get(a, FooterCopyright) == Get(b, FooterCopyright);
  }

  /**
   The `onChange` of a text input: the nested spread that rebuilds the
   path to one leaf. The chosen leaf takes the value; every other text
   leaf, every list and every style is kept.
   */
  function Set(c: Content, f: TextField, v: string): (r: Content)
    ensures Get(r, f) == v
    ensures forall g :: g != f ==> Get(r, g) == Get(c, g)
    ensures SameBeyondText(c, r)
  {
    match f
    case HeroTitlePart1 => c.(hero := c.hero.(title := c.hero.title.(part1 := v)))
    case HeroTitlePart2 => c.(hero := c.hero.(title := c.hero.title.(part2 := v)))
    case HeroDescription => c.(hero := c.hero.(description := v))
    case HeroPrimaryText => c.(hero := c.hero.(cta := c.hero.cta.(primary := c.hero.cta.primary.(text := v))))
    case HeroPrimaryLink => c.(hero := c.hero.(cta := c.hero.cta.(primary := c.hero.cta.primary.(link := v))))
    case HeroSecondaryText => c.(hero := c.hero.(cta := c.hero.cta.(secondary := c.hero.cta.secondary.(text := v))))
    case HeroSecondaryLink => c.(hero := c.hero.(cta := c.hero.cta.(secondary := c.hero.cta.secondary.(link := v))))
    case HeroImage => c.(hero := c.hero.(image := v))
    case AboutImage => c.(about := c.about.(image := v))
    case AboutName => c.(about := c.about.(name := v))
    case AboutSubtitle => c.(about := c.about.(subtitle := v))
    case AboutContent => c.(about := c.about.(content := v))
    case AboutEducation => c.(about := c.about.(education := v))
    case AboutLocation => c.(about := c.about.(location := v))
    case AboutInterests => c.(about := c.about.(interests := v))
    case AboutExperience => c.(about := c.about.(experience := v))
    case SkillsTitle => c.(skills := c.skills.(title := v))
    case ContactTitle => c.(contact := c.contact.(title := v))
    case ContactSubtitle => c.(contact := c.contact.(subtitle := v))
    case ContactDescription => c.(contact := c.contact.(description := v))
    case FooterTitle => c.(footer := c.footer.(title := v))
    case FooterSubtitle => c.(footer := c.footer.(subtitle := v))
    case FooterLinkedin => c.(footer := c.footer.(social := c.footer.social.(linkedin := v)))
    case FooterGithub => c.(footer := c.footer.(social := c.footer.social.(github := v)))
    case FooterInstagram => c.(footer := c.footer.(social := c.footer.social.(instagram := v)))
    case FooterTwitter => c.(footer := c.footer.(social := c.footer.social.(twitter := v)))
    case FooterCopyright => c.(footer := c.footer.(copyright := v))
  }

  /** Typing back the value an input already shows leaves the document as it was. */
  lemma SetSameValueIsIdentity(c: Content, f: TextField)
    ensures Set(c, f, Get(c, f)) == c
  {
    ContentExtensionality(Set(c, f, Get(c, f)), c);
  }

  /** Two edits of the same input: the last one wins. */
  lemma SetTwiceLastWins(c: Content, f: TextField, v: string, w: string)
    ensures Set(Set(c, f, v), f, w) == Set(c, f, w)
  {
    var x := Set(Set(c, f, v), f, w);
    var y := Set(c, f, w);
    forall h
      ensures Get(x, h) == Get(y, h)
    {
      if h != f {
        assert Get(x, h) == Get(c, h) == Get(y, h);
      }
    }
    ContentExtensionality(x, y);
  }

  /** Edits of different inputs do not interfere: their order does not matter. */
  lemma SetDistinctCommute(c: Content, f: TextField, g: TextField, v: string, w: string)
    requires f != g
    ensures Set(Set(c, f, v), g, w) == Set(Set(c, g, w), f, v)
  {
    var x := Set(Set(c, f, v), g, w);
    var y := Set(Set(c, g, w), f, v);
    forall h
      ensures Get(x, h) == Get(y, h)
    {
      if h == f {
        assert Get(x, h) == v == Get(y, h);
      } else if h == g {
        assert Get(x, h) == w == Get(y, h);
      } else {
        assert Get(x, h) == Get(c, h) == Get(y, h);
      }
    }
    ContentExtensionality(x, y);
  }

  // ----- Icon and tag styles -----

  /** The two style blocks the form edits: the About icons and the project tags. */
  datatype StyleTarget = AboutIcons | ProjectTags

  /** One style input: a background colour, an opacity (0-100) or a foreground colour. */
  datatype StyleEdit = Background(color: string) | Opacity(percent: int) | Foreground(color: string)

  /** `content.about.iconStyles`, or `content.projects?.tagStyles`. */
  function StyleOf(c: Content, t: StyleTarget): Option<Swatch>
  {
    match t
    case AboutIcons => c.about.iconStyles
    case ProjectTags => if c.projects.Some? then c.projects.value.tagStyles else None
  }

  /**
   `{ ...styles, member: value }`: spreading a missing block gives an
   object with only the edited member.
   */
  function ApplyStyle(s: Option<Swatch>, e: StyleEdit): (r: Swatch)
    ensures e.Background? ==> r.backgroundColor == Some(e.color)
    ensures e.Opacity? ==> r.backgroundOpacity == Some(e.percent)
    ensures e.Foreground? ==> r.foreground == Some(e.color)
    ensures !e.Background? ==> r.backgroundColor == (if s.Some? then s.value.backgroundColor else None)
    ensures !e.Opacity? ==> r.backgroundOpacity == (if s.Some? then s.value.backgroundOpacity else None)
    ensures !e.Foreground? ==> r.foreground == (if s.Some? then s.value.foreground else None)
  {
    var base := s.GetOr(Swatch(None, None, None));
    match e
    case Background(color) => base.(backgroundColor := Some(color))
    case Opacity(percent) => base.(backgroundOpacity := Some(percent))
    case Foreground(color) => base.(foreground := Some(color))
  }

  function OtherTarget(t: StyleTarget): StyleTarget
  {
    match t
    case AboutIcons => ProjectTags
    case ProjectTags => AboutIcons
  }

  /** A style input's `onChange`: one member of one block changes; the other block and all text are kept. */
  function EditStyle(c: Content, t: StyleTarget, e: StyleEdit): (r: Content)
    ensures StyleOf(r, t) == Some(ApplyStyle(StyleOf(c, t), e))
    ensures StyleOf(r, OtherTarget(t)) == StyleOf(c, OtherTarget(t))
    ensures forall f :: Get(r, f) == Get(c, f)
    ensures r.skills == c.skills && r.contact == c.contact && r.footer.bottomLinks == c.footer.bottomLinks
    ensures r.hero == c.hero && r.footer == c.footer && r.about.title == c.about.title
    ensures t == AboutIcons ==> r.projects == c.projects
    ensures t == ProjectTags ==> r.about == c.about && r.projects == Some(ProjectsSection(StyleOf(r, t)))
  {
    var s := ApplyStyle(StyleOf(c, t), e);
    match t
    case AboutIcons => c.(about := c.about.(iconStyles := Some(s)))
    case ProjectTags => c.(projects := Some(ProjectsSection(Some(s))))
  }

  /** The opacity an input shows when nothing usable is stored. */
  const DefaultOpacity: int := 10

  /** The colour an input shows when nothing usable is stored. */
  const DefaultColor: string := "var(--color-primary)"

  /** The stored opacity of a block, `undefined` when the block or the member is missing. */
  function StoredOpacity(c: Content, t: StyleTarget): Option<int>
  {
    var s := StyleOf(c, t);
    if s.Some? then s.value.backgroundOpacity else None
  }

  /** `styles?.backgroundOpacity || 10`: the number the opacity input and the preview show. */
  function ShownOpacity(c: Content, t: StyleTarget): (r: int)
    ensures r != 0
    ensures StoredOpacity(c, t).Some? && StoredOpacity(c, t).value != 0 ==> r == StoredOpacity(c, t).value
    ensures StoredOpacity(c, t) == None || StoredOpacity(c, t) == Some(0) ==> r == DefaultOpacity
  {
    match StoredOpacity(c, t)
    case None => DefaultOpacity
    case Some(n) => if n == 0 then DefaultOpacity else n
  }

  /** `color || 'var(--color-primary)'`: a missing or empty colour shows the default. */
  function ShownColor(stored: Option<string>): (r: string)
    ensures r != ""
    ensures stored.Some? && stored.value != "" ==> r == stored.value
    ensures stored == None || stored == Some("") ==> r == DefaultColor
  {
    match stored
    case None => DefaultColor
    case Some(s) => if s == "" then DefaultColor else s
  }

  /**
   Typing an opacity into the input and reading it back shows that number,
   except 0: it is stored, but the input then shows 10.
   */
  lemma OpacityShownAfterEdit(c: Content, t: StyleTarget, n: int)
    ensures StoredOpacity(EditStyle(c, t, Opacity(n)), t) == Some(n)
    ensures n != 0 ==> ShownOpacity(EditStyle(c, t, Opacity(n)), t) == n
    ensures n == 0 ==> ShownOpacity(EditStyle(c, t, Opacity(n)), t) == DefaultOpacity
  {
  }

  // ----- Skill categories -----

  /** The document with the skill category list swapped for `l`. */
  function WithSkillCategories(c: Content, l: seq<SkillCategory>): Content
  {
    c.(skills := c.skills.(skillCategories := l))
  }

  const NewSkillCategory: SkillCategory := SkillCategory("New Category", "fas fa-star", "text-purple-600")

  datatype CategoryField = CategoryName | CategoryIcon | CategoryColor

  function SetCategoryField(cat: SkillCategory, f: CategoryField, v: string): (r: SkillCategory)
    ensures f == CategoryName ==> r.name == v
    ensures f == CategoryIcon ==> r.icon == v
    ensures f == CategoryColor ==> r.color == v
    ensures f != CategoryName ==> r.name == cat.name
    ensures f != CategoryIcon ==> r.icon == cat.icon
    ensures f != CategoryColor ==> r.color == cat.color
  {
    match f
    case CategoryName => cat.(name := v)
    case CategoryIcon => cat.(icon := v)
    case CategoryColor => cat.(color := v)
  }

  /** Add Category: one default category at the end; nothing else changes. */
  function AddSkillCategory(c: Content): (r: Content)
    ensures Seqs.Appended(c.skills.skillCategories, r.skills.skillCategories, NewSkillCategory)
    ensures WithSkillCategories(r, c.skills.skillCategories) == c
  {
    WithSkillCategories(c, c.skills.skillCategories + [NewSkillCategory])
  }

  /** Editing category `i`: that one category gets the field, every other position and section is kept. */
  function EditSkillCategory(c: Content, i: nat, f: CategoryField, v: string): (r: Content)
    requires i < |c.skills.skillCategories|
    ensures Seqs.Replaced(c.skills.skillCategories, r.skills.skillCategories, i,
                          SetCategoryField(c.skills.skillCategories[i], f, v))
    ensures WithSkillCategories(r, c.skills.skillCategories) == c
  {
    var l := c.skills.skillCategories;
    WithSkillCategories(c, Seqs.ReplaceAt(l, i, SetCategoryField(l[i], f, v)))
  }

  /** Deleting category `i`: exactly that position goes, the rest keep their order. */
  function RemoveSkillCategory(c: Content, i: nat): (r: Content)
    requires i < |c.skills.skillCategories|
    ensures Seqs.Removed(c.skills.skillCategories, r.skills.skillCategories, i)
    ensures WithSkillCategories(r, c.skills.skillCategories) == c
  {
    WithSkillCategories(c, Seqs.RemoveAt(c.skills.skillCategories, i))
  }

  /** Deleting the category just added gives back the document from before the add. */
  lemma RemoveUndoesAddSkillCategory(c: Content)
    ensures RemoveSkillCategory(AddSkillCategory(c), |c.skills.skillCategories|) == c
  {
    var l := c.skills.skillCategories;
    assert (l + [NewSkillCategory])[..|l|] == l;
  }

  // ----- Technical proficiency categories and their skills -----

  function WithTechCategories(c: Content, l: seq<TechCategory>): Content
  {
    c.(skills := c.skills.(technicalProficiencies := c.skills.technicalProficiencies.(categories := l)))
  }

  const NewTechCategory: TechCategory := TechCategory("New Category", "fas fa-code", [])
  const NewSkill: Skill := Skill("", 50)

  datatype TechField = TechName | TechIcon

  function SetTechField(cat: TechCategory, f: TechField, v: string): (r: TechCategory)
    ensures f == TechName ==> r.name == v && r.icon == cat.icon
    ensures f == TechIcon ==> r.icon == v && r.name == cat.name
    ensures r.skills == cat.skills
  {
    match f
    case TechName => cat.(name := v)
    case TechIcon => cat.(icon := v)
  }

  /** Add Skill Category: an empty proficiency category at the end. */
  function AddTechCategory(c: Content): (r: Content)
    ensures Seqs.Appended(c.skills.technicalProficiencies.categories,
                          r.skills.technicalProficiencies.categories, NewTechCategory)
    ensures WithTechCategories(r, c.skills.technicalProficiencies.categories) == c
  {
    WithTechCategories(c, c.skills.technicalProficiencies.categories + [NewTechCategory])
  }

  /** Renaming or re-iconing proficiency category `i`; its skills and the other categories are kept. */
  function EditTechCategory(c: Content, i: nat, f: TechField, v: string): (r: Content)
    requires i < |c.skills.technicalProficiencies.categories|
    ensures Seqs.Replaced(c.skills.technicalProficiencies.categories, r.skills.technicalProficiencies.categories, i,
                          SetTechField(c.skills.technicalProficiencies.categories[i], f, v))
    ensures WithTechCategories(r, c.skills.technicalProficiencies.categories) == c
  {
    var l := c.skills.technicalProficiencies.categories;
    WithTechCategories(c, Seqs.ReplaceAt(l, i, SetTechField(l[i], f, v)))
  }

  /** Deleting proficiency category `i` with all its skills. */
  function RemoveTechCategory(c: Content, i: nat): (r: Content)
    requires i < |c.skills.technicalProficiencies.categories|
    ensures Seqs.Removed(c.skills.technicalProficiencies.categories, r.skills.technicalProficiencies.categories, i)
    ensures WithTechCategories(r, c.skills.technicalProficiencies.categories) == c
  {
    WithTechCategories(c, Seqs.RemoveAt(c.skills.technicalProficiencies.categories, i))
  }

  /** Deleting the proficiency category just added gives back the document from before the add. */
  lemma RemoveUndoesAddTechCategory(c: Content)
    ensures RemoveTechCategory(AddTechCategory(c), |c.skills.technicalProficiencies.categories|) == c
  {
    var l := c.skills.technicalProficiencies.categories;
    assert (l + [NewTechCategory])[..|l|] == l;
  }

  /** One skill input: its name, or its percentage from the range slider. */
  datatype SkillEdit = SkillName(name: string) | SkillPercentage(percent: int)

  function ApplySkillEdit(s: Skill, e: SkillEdit): (r: Skill)
    ensures e.SkillName? ==> r.name == e.name && r.percentage == s.percentage
    ensures e.SkillPercentage? ==> r.percentage == e.percent && r.name == s.name
  {
    match e
    case SkillName(name) => s.(name := name)
    case SkillPercentage(percent) => s.(percentage := percent)
  }

  /**
   `b` is category list `a` with only the skills of category `ci` changed:
   every other category, and the name and icon of `ci`, are kept.
   */
  predicate OnlySkillsOf(a: seq<TechCategory>, b: seq<TechCategory>, ci: int)
  {
    && 0 <= ci < |a| && |b| == |a|
    && Seqs.Replaced(a, b, ci, b[ci])
    && b[ci].name == a[ci].name
    && b[ci].icon == a[ci].icon
  }

  /** Add Skill: `{name: '', percentage: 50}` at the end of category `ci` only. */
  function AddSkill(c: Content, ci: nat): (r: Content)
    requires ci < |c.skills.technicalProficiencies.categories|
    ensures |r.skills.technicalProficiencies.categories| == |c.skills.technicalProficiencies.categories|
    ensures OnlySkillsOf(c.skills.technicalProficiencies.categories, r.skills.technicalProficiencies.categories, ci)
    ensures Seqs.Appended(c.skills.technicalProficiencies.categories[ci].skills,
                          r.skills.technicalProficiencies.categories[ci].skills, NewSkill)
    ensures WithTechCategories(r, c.skills.technicalProficiencies.categories) == c
  {
    var l := c.skills.technicalProficiencies.categories;
    WithTechCategories(c, Seqs.ReplaceAt(l, ci, l[ci].(skills := l[ci].skills + [NewSkill])))
  }

  /** Editing skill `si` of category `ci`: that skill alone changes, in that category alone. */
  function EditSkill(c: Content, ci: nat, si: nat, e: SkillEdit): (r: Content)
    requires ci < |c.skills.technicalProficiencies.categories|
    requires si < |c.skills.technicalProficiencies.categories[ci].skills|
    ensures |r.skills.technicalProficiencies.categories| == |c.skills.technicalProficiencies.categories|
    ensures OnlySkillsOf(c.skills.technicalProficiencies.categories, r.skills.technicalProficiencies.categories, ci)
    ensures Seqs.Replaced(c.skills.technicalProficiencies.categories[ci].skills,
                          r.skills.technicalProficiencies.categories[ci].skills, si,
                          ApplySkillEdit(c.skills.technicalProficiencies.categories[ci].skills[si], e))
    ensures WithTechCategories(r, c.skills.technicalProficiencies.categories) == c
  {
    var l := c.skills.technicalProficiencies.categories;
    var skills := l[ci].skills;
    WithTechCategories(c, Seqs.ReplaceAt(l, ci, l[ci].(skills := Seqs.ReplaceAt(skills, si, ApplySkillEdit(skills[si], e)))))
  }

  /** Deleting skill `si` of category `ci`: exactly that skill goes, in that category alone. */
  function RemoveSkill(c: Content, ci: nat, si: nat): (r: Content)
    requires ci < |c.skills.technicalProficiencies.categories|
    requires si < |c.skills.technicalProficiencies.categories[ci].skills|
    ensures |r.skills.technicalProficiencies.categories| == |c.skills.technicalProficiencies.categories|
    ensures OnlySkillsOf(c.skills.technicalProficiencies.categories, r.skills.technicalProficiencies.categories, ci)
    ensures Seqs.Removed(c.skills.technicalProficiencies.categories[ci].skills,
                         r.skills.technicalProficiencies.categories[ci].skills, si)
    ensures WithTechCategories(r, c.skills.technicalProficiencies.categories) == c
  {
    var l := c.skills.technicalProficiencies.categories;
    WithTechCategories(c, Seqs.ReplaceAt(l, ci, l[ci].(skills := Seqs.RemoveAt(l[ci].skills, si))))
  }

  /** Deleting the skill just added gives back the document from before the add. */
  lemma RemoveUndoesAddSkill(c: Content, ci: nat)
    requires ci < |c.skills.technicalProficiencies.categories|
    ensures RemoveSkill(AddSkill(c, ci), ci, |c.skills.technicalProficiencies.categories[ci].skills|) == c
  {
    var l := c.skills.technicalProficiencies.categories;
    var s := l[ci].skills;
    var added := AddSkill(c, ci);
    var l1 := added.skills.technicalProficiencies.categories;
    assert l1[ci].skills == s + [NewSkill];
    assert Seqs.RemoveAt(l1[ci].skills, |s|) == s by {
      assert (s + [NewSkill])[..|s|] == s;
    }
    assert l1[ci].(skills := s) == l[ci];
    assert l1[ci := l[ci]] == l;
  }

  // ----- Contact items and social links -----

  function WithContactItems(c: Content, l: seq<ContactItem>): Content
  {
    c.(contact := c.contact.(contactItems := l))
  }

  function WithSocialLinks(c: Content, l: seq<SocialLink>): Content
  {
    c.(contact := c.contact.(socialLinks := l))
  }

  const NewContactItem: ContactItem := ContactItem("fas fa-info", "New Item", "")
  const NewSocialLink: SocialLink := SocialLink("New Social", "fab fa-link", "", "bg-gray-600")

  datatype ItemField = ItemIcon | ItemLabel | ItemValue

  function SetItemField(item: ContactItem, f: ItemField, v: string): (r: ContactItem)
    ensures f == ItemIcon ==> r.icon == v
    ensures f == ItemLabel ==> r.labelText == v
    ensures f == ItemValue ==> r.value == v
    ensures f != ItemIcon ==> r.icon == item.icon
    ensures f != ItemLabel ==> r.labelText == item.labelText
    ensures f != ItemValue ==> r.value == item.value
  {
    match f
    case ItemIcon => item.(icon := v)
    case ItemLabel => item.(labelText := v)
    case ItemValue => item.(value := v)
  }

  /** Add Contact Item. */
  function AddContactItem(c: Content): (r: Content)
    ensures Seqs.Appended(c.contact.contactItems, r.contact.contactItems, NewContactItem)
    ensures WithContactItems(r, c.contact.contactItems) == c
  {
    WithContactItems(c, c.contact.contactItems + [NewContactItem])
  }

  function EditContactItem(c: Content, i: nat, f: ItemField, v: string): (r: Content)
    requires i < |c.contact.contactItems|
    ensures Seqs.Replaced(c.contact.contactItems, r.contact.contactItems, i,
                          SetItemField(c.contact.contactItems[i], f, v))
    ensures WithContactItems(r, c.contact.contactItems) == c
  {
    var l := c.contact.contactItems;
    WithContactItems(c, Seqs.ReplaceAt(l, i, SetItemField(l[i], f, v)))
  }

  function RemoveContactItem(c: Content, i: nat): (r: Content)
    requires i < |c.contact.contactItems|
    ensures Seqs.Removed(c.contact.contactItems, r.contact.contactItems, i)
    ensures WithContactItems(r, c.contact.contactItems) == c
  {
    WithContactItems(c, Seqs.RemoveAt(c.contact.contactItems, i))
  }

  /** Deleting the contact item just added gives back the document from before the add. */
  lemma RemoveUndoesAddContactItem(c: Content)
    ensures RemoveContactItem(AddContactItem(c), |c.contact.contactItems|) == c
  {
    var l := c.contact.contactItems;
    assert (l + [NewContactItem])[..|l|] == l;
  }

  datatype LinkField = LinkName | LinkIcon | LinkUrl | LinkColor

  function SetLinkField(link: SocialLink, f: LinkField, v: string): (r: SocialLink)
    ensures f == LinkName ==> r.name == v
    ensures f == LinkIcon ==> r.icon == v
    ensures f == LinkUrl ==> r.url == v
    ensures f == LinkColor ==> r.color == v
    ensures f != LinkName ==> r.name == link.name
    ensures f != LinkIcon ==> r.icon == link.icon
    ensures f != LinkUrl ==> r.url == link.url
    ensures f != LinkColor ==> r.color == link.color
  {
    match f
    case LinkName => link.(name := v)
    case LinkIcon => link.(icon := v)
    case LinkUrl => link.(url := v)
    case LinkColor => link.(color := v)
  }

  /** Add Social Link. */
  function AddSocialLink(c: Content): (r: Content)
    ensures Seqs.Appended(c.contact.socialLinks, r.contact.socialLinks, NewSocialLink)
    ensures WithSocialLinks(r, c.contact.socialLinks) == c
  {
    WithSocialLinks(c, c.contact.socialLinks + [NewSocialLink])
  }

  function EditSocialLink(c: Content, i: nat, f: LinkField, v: string): (r: Content)
    requires i < |c.contact.socialLinks|
    ensures Seqs.Replaced(c.contact.socialLinks, r.contact.socialLinks, i,
                          SetLinkField(c.contact.socialLinks[i], f, v))
    ensures WithSocialLinks(r, c.contact.socialLinks) == c
  {
    var l := c.contact.socialLinks;
    WithSocialLinks(c, Seqs.ReplaceAt(l, i, SetLinkField(l[i], f, v)))
  }

  function RemoveSocialLink(c: Content, i: nat): (r: Content)
    requires i < |c.contact.socialLinks|
    ensures Seqs.Removed(c.contact.socialLinks, r.contact.socialLinks, i)
    ensures WithSocialLinks(r, c.contact.socialLinks) == c
  {
    WithSocialLinks(c, Seqs.RemoveAt(c.contact.socialLinks, i))
  }

  /** Deleting the social link just added gives back the document from before the add. */
  lemma RemoveUndoesAddSocialLink(c: Content)
    ensures RemoveSocialLink(AddSocialLink(c), |c.contact.socialLinks|) == c
  {
    var l := c.contact.socialLinks;
    assert (l + [NewSocialLink])[..|l|] == l;
  }

  // ----- Footer links -----

  function WithBottomLinks(c: Content, l: seq<BottomLink>): Content
  {
    c.(footer := c.footer.(bottomLinks := l))
  }

  const NewBottomLink: BottomLink := BottomLink("", "")

  datatype BottomField = BottomLabel | BottomUrl

  function SetBottomField(link: BottomLink, f: BottomField, v: string): (r: BottomLink)
    ensures f == BottomLabel ==> r.labelText == v && r.url == link.url
    ensures f == BottomUrl ==> r.url == v && r.labelText == link.labelText
  {
    match f
    case BottomLabel => link.(labelText := v)
    case BottomUrl => link.(url := v)
  }

  /** Add Link: an empty link at the end of the footer links. */
  function AddBottomLink(c: Content): (r: Content)
    ensures Seqs.Appended(c.footer.bottomLinks, r.footer.bottomLinks, NewBottomLink)
    ensures WithBottomLinks(r, c.footer.bottomLinks) == c
  {
    WithBottomLinks(c, c.footer.bottomLinks + [NewBottomLink])
  }

  function EditBottomLink(c: Content, i: nat, f: BottomField, v: string): (r: Content)
    requires i < |c.footer.bottomLinks|
    ensures Seqs.Replaced(c.footer.bottomLinks, r.footer.bottomLinks, i, SetBottomField(c.footer.bottomLinks[i], f, v))
    ensures WithBottomLinks(r, c.footer.bottomLinks) == c
  {
    var l := c.footer.bottomLinks;
    WithBottomLinks(c, Seqs.ReplaceAt(l, i, SetBottomField(l[i], f, v)))
  }

  function RemoveBottomLink(c: Content, i: nat): (r: Content)
    requires i < |c.footer.bottomLinks|
    ensures Seqs.Removed(c.footer.bottomLinks, r.footer.bottomLinks, i)
    ensures WithBottomLinks(r, c.footer.bottomLinks) == c
  {
    WithBottomLinks(c, Seqs.RemoveAt(c.footer.bottomLinks, i))
  }

  /** Deleting the footer link just added gives back the document from before the add. */
  lemma RemoveUndoesAddBottomLink(c: Content)
    ensures RemoveBottomLink(AddBottomLink(c), |c.footer.bottomLinks|) == c
  {
    var l := c.footer.bottomLinks;
    assert (l + [NewBottomLink])[..|l|] == l;
  }

  // ----- Submit -----

  /** What pressing Save Changes does: nothing without a loaded document, else a PUT of it. */
  datatype Submission = NoRequest | PutRequest(body: Content)

  function Submit(content: Option<Content>): (r: Submission)
    ensures r.NoRequest? <==> content.None?
    ensures r.PutRequest? ==> r.body == content.value
  {
    match content
    case None => NoRequest
    case Some(c) => PutRequest(c)
  }
}

=== FILE: js_strings.dfy ===
/**
 The two ECMAScript string built-ins the admin forms rely on:
 `String.prototype.trim` (tag input) and `String(n)` of a positive
 integer (navigation item ids), with a decimal parser as the partner
 of the latter.
 */
module JsStrings {
  import opened Wrappers

  /** The ECMAScript WhiteSpace and LineTerminator code points, which `trim` strips. */
  function IsWhitespace(c: char): (b: bool)
    ensures c < '\U{0080}' ==> (b <==> c in "\t\n\U{000B}\U{000C}\r ")
    ensures b ==> !('0' <= c <= '9') && !('A' <= c <= 'Z') && !('a' <= c <= 'z')
  {
    || c == '\t' || c == '\U{000B}' || c == '\U{000C}' || c == ' '
    || c == '\U{00A0}' || c == '\U{FEFF}'
    || c == '\n' || c == '\r' || c == '\U{2028}' || c == '\U{2029}'
    // the remaining Unicode "Space_Separator" (Zs) code points
    || c == '\U{1680}' || ('\U{2000}' <= c <= '\U{200A}')
    || c == '\U{202F}' || c == '\U{205F}' || c == '\U{3000}'
  }

  predicate AllWhitespace(s: string)
  {
    forall k :: 0 <= k < |s| ==> IsWhitespace(s[k])
  }

  /** Leading whitespace removed: a suffix of `s` that starts with a non-blank or is empty. */
  function TrimStart(s: string): (r: string)
    ensures |r| <= |s| && r == s[|s| - |r|..]
    ensures AllWhitespace(s[..|s| - |r|])
    ensures |r| > 0 ==> !IsWhitespace(r[0])
  {
    if |s| > 0 && IsWhitespace(s[0]) then TrimStart(s[1..]) else s
  }

  /** Trailing whitespace removed: a prefix of `s` that ends with a non-blank or is empty. */
  function TrimEnd(s: string): (r: string)
    ensures |r| <= |s| && r == s[..|r|]
    ensures AllWhitespace(s[|r|..])
    ensures |r| > 0 ==> !IsWhitespace(r[|r| - 1])
  {
    if |s| > 0 && IsWhitespace(s[|s| - 1]) then TrimEnd(s[..|s| - 1]) else s
  }

  /** `r` is the slice of `s` starting at `i`, with only whitespace before and after it. */
  predicate BlankAround(s: string, r: string, i: int)
  {
    && 0 <= i && i + |r| <= |s|
    && r == s[i..i + |r|]
    && AllWhitespace(s[..i])
    && AllWhitespace(s[i + |r|..])
  }

  /**
   `s.trim()`: the contiguous middle of `s` left once the blank prefix and
   suffix are cut off; it neither starts nor ends with whitespace.
   */
  function Trim(s: string): (r: string)
    ensures |r| <= |s|
    ensures exists i :: BlankAround(s, r, i)
    ensures |r| > 0 ==> !IsWhitespace(r[0]) && !IsWhitespace(r[|r| - 1])
  {
    var t := TrimStart(s);
    var r := TrimEnd(t);
    TrimParts(s, t, r);
    r
  }

  /** Cutting a blank prefix and then a blank suffix leaves a slice with blanks around it. */
  lemma TrimParts(s: string, t: string, r: string)
    requires |t| <= |s| && t == s[|s| - |t|..] && AllWhitespace(s[..|s| - |t|])
    requires |r| <= |t| && r == t[..|r|] && AllWhitespace(t[|r|..])
    ensures BlankAround(s, r, |s| - |t|)
  {
    var i := |s| - |t|;
    assert r == s[i..i + |r|];
    assert s[i + |r|..] == t[|r|..];
  }

  /** The trimmed text is empty exactly when the input is blank (or empty). */
  lemma TrimEmptyIffBlank(s: string)
    ensures Trim(s) == [] <==> AllWhitespace(s)
  {
    var r := Trim(s);
    if r == [] {
      var i :| BlankAround(s, r, i);
      forall k | 0 <= k < |s|
        ensures IsWhitespace(s[k])
      {
        if k < i { assert s[..i][k] == s[k]; } else { assert s[i..][k - i] == s[k]; }
      }
    } else {
      var i :| BlankAround(s, r, i);
      assert s[i] == r[0];
    }
  }

  /** Trimming twice gives what trimming once gives. */
  lemma TrimIdempotent(s: string)
    ensures Trim(Trim(s)) == Trim(s)
  {
    var r := Trim(s);
    if |r| > 0 {
      assert TrimStart(r) == r;
      assert TrimEnd(r) == r;
    }
  }

  /** The character of a decimal digit. */
  function DigitChar(d: nat): (c: char)
    requires d < 10
    ensures '0' <= c <= '9'
    ensures c as int - '0' as int == d
  {
    ('0' as int + d) as char
  }

  /** The digit a decimal character stands for. */
  function DigitValue(c: char): (d: nat)
    requires '0' <= c <= '9'
    ensures d < 10 && DigitChar(d) == c
  {
    (c as int - '0' as int) as nat
  }

  /**
   `String(n)` for the ids the navigation editor makes (a list length plus
   one): decimal digits, no sign, no leading zero. JavaScript switches to
   exponent form from 10^21 on, far beyond any list length.
   */
  function DecimalString(n: nat): (r: string)
    ensures |r| > 0
    ensures forall k :: 0 <= k < |r| ==> '0' <= r[k] <= '9'
    ensures |r| > 1 ==> r[0] != '0'
  {
    if n < 10 then [DigitChar(n)] else DecimalString(n / 10) + [DigitChar(n % 10)]
  }

  /** The value of a non-empty run of decimal digits, or None for anything else. */
  function ParseDecimal(s: string): (r: Option<nat>)
    ensures r.Some? <==> |s| > 0 && forall k :: 0 <= k < |s| ==> '0' <= s[k] <= '9'
  {
    if |s| == 0 || !('0' <= s[|s| - 1] <= '9') then None
    else if |s| == 1 then Some(DigitValue(s[0]))
    else match ParseDecimal(s[..|s| - 1])
      case None => None
      case Some(v) => Some(v * 10 + DigitValue(s[|s| - 1]))
  }

  /** Reading back the text of `String(n)` yields `n`. */
  lemma {:induction false} ParseDecimalString(n: nat)
    ensures ParseDecimal(DecimalString(n)) == Some(n)
  {
    if n >= 10 {
      ParseDecimalString(n / 10);
      var prefix := DecimalString(n / 10);
      var s := DecimalString(n);
      assert s == prefix + [DigitChar(n % 10)];
      assert s[..|s| - 1] == prefix;
      assert DigitValue(s[|s| - 1]) == n % 10;
    }
  }

  /** Distinct numbers print as distinct strings. */
  lemma DecimalStringInjective(a: nat, b: nat)
    requires DecimalString(a) == DecimalString(b)
    ensures a == b
  {
    ParseDecimalString(a);
    ParseDecimalString(b);
  }
}

=== FILE: navbar.dfy ===
/**
 The navigation editor of the admin area: the site name and the list of
 menu items, each with an id, a link target and a label; the saved
 configuration it reloads from browser storage.
 */
module Navbar {
  import opened Wrappers
  import Seqs
  import JsStrings

  datatype NavItem = NavItem(id: string, href: string, labelText: string)

  /** The two fields the editor lets the user change on an item. */
  datatype Field = Href | Label

  /**
   A value as `JSON.parse` hands it back (numbers restricted to integers;
   an array is taken to hold menu items, which is what this page saves).
   */
  datatype JsValue =
    | Undefined
    | Null
    | Bool(b: bool)
    | Number(n: int)
    | Str(s: string)
    | Array(items: seq<NavItem>)
    | Object

  /** JavaScript truthiness: false for undefined, null, false, 0 and the empty string. */
  function Truthy(v: JsValue): (b: bool)
    ensures !b <==> v in {Undefined, Null, Bool(false), Number(0), Str("")}
  {
    match v
    case Undefined => false
    case Null => false
    case Bool(b) => b
    case Number(n) => n != 0
    case Str(s) => s != ""
    case Array(_) => true
    case Object => true
  }

  /** The editor's state: the name (whatever the saved config held) and the item list. */
  datatype Editor = Editor(name: JsValue, items: seq<NavItem>)

  function FieldOf(item: NavItem, field: Field): string
  {
    match field
    case Href => item.href
    case Label => item.labelText
  }

  function OtherField(field: Field): Field
  {
    match field
    case Href => Label
    case Label => Href
  }

  /** No two items share an id (React keys them by id). */
  predicate UniqueIds(items: seq<NavItem>)
  {
    forall i, j :: 0 <= i < j < |items| ==> items[i].id != items[j].id
  }

  /** Ids are "1", "2", … in list order, as in a list nobody has removed from. */
  predicate DenseIds(items: seq<NavItem>)
  {
    forall k :: 0 <= k < |items| ==> items[k].id == JsStrings.DecimalString(k + 1)
  }

  /** The five items the editor starts with. */
  function DefaultItems(): (r: seq<NavItem>)
    ensures |r| == 5 && DenseIds(r)
    ensures r[0].href == "/" && r[4].href == "#contact"
  {
    [ NavItem("1", "/", "Home"),
      NavItem("2", "#about", "About"),
      NavItem("3", "#projects", "Projects"),
      NavItem("4", "#skills", "Skills"),
      NavItem("5", "#contact", "Contact") ]
  }

  function InitialEditor(currentName: string): (e: Editor)
    ensures e.name == Str(currentName) && e.items == DefaultItems()
  {
    Editor(Str(currentName), DefaultItems())
  }

  /** Ids "1" … "n" in order are pairwise distinct. */
  lemma DenseIdsAreUnique(items: seq<NavItem>)
    requires DenseIds(items)
    ensures UniqueIds(items)
  {
    forall i, j | 0 <= i < j < |items|
      ensures items[i].id != items[j].id
    {
      if items[i].id == items[j].id {
        JsStrings.DecimalStringInjective(i + 1, j + 1);
      }
    }
  }

  /** The default list has five distinct ids. */
  lemma DefaultIdsAreUnique()
    ensures UniqueIds(DefaultItems())
  {
    DenseIdsAreUnique(DefaultItems());
  }

  /** A saved configuration, once parsed: its `name` and `items` members. */
  datatype Saved = Saved(name: JsValue, items: JsValue)

  /**
   The mount effect: with a saved configuration (None stands for nothing
   saved, an empty string, or text that does not parse), a truthy `name`
   replaces the name and an array `items` replaces the list; anything else
   keeps the current value.
   */
  function LoadSaved(e: Editor, saved: Option<Saved>): (r: Editor)
    ensures saved.None? ==> r == e
    ensures saved.Some? && Truthy(saved.value.name) ==> r.name == saved.value.name
    ensures saved.Some? && !Truthy(saved.value.name) ==> r.name == e.name
    ensures saved.Some? && saved.value.items.Array? ==> r.items == saved.value.items.items
    ensures saved.Some? && !saved.value.items.Array? ==> r.items == e.items
  {
    match saved
    case None => e
    case Some(Saved(name, items)) =>
      var e1 := if Truthy(name) then e.(name := name) else e;
      if items.Array? then e1.(items := items.items) else e1
  }

  /** `handleSubmit`: the configuration written to storage. */
  function Save(e: Editor): (s: Saved)
    ensures s.name == e.name
    ensures s.items.Array? && s.items.items == e.items
  {
    Saved(e.name, Array(e.items))
  }

  /**
   Saving and reloading restores the editor, unless the name is falsy (an
   emptied name field): then the reload keeps whatever name was showing.
   */
  lemma SaveThenLoad(e: Editor, current: Editor)
    ensures Truthy(e.name) ==> LoadSaved(current, Some(Save(e))) == e
    ensures !Truthy(e.name) ==> LoadSaved(current, Some(Save(e))) == Editor(current.name, e.items)
  {
  }

  /** `handleNameChange`. */
  function ChangeName(e: Editor, value: string): (r: Editor)
    ensures r.name == Str(value) && r.items == e.items
  {
    e.(name := Str(value))
  }

  function SetField(item: NavItem, field: Field, value: string): (r: NavItem)
    ensures r.id == item.id
    ensures FieldOf(r, field) == value
    ensures FieldOf(r, OtherField(field)) == FieldOf(item, OtherField(field))
  {
    match field
    case Href => item.(href := value)
    case Label => item.(labelText := value)
  }

  /**
   `handleNavItemChange`: every item whose id matches gets the chosen field
   set; its id and other field are kept, and every other item is untouched.
   */
  function ChangeItem(items: seq<NavItem>, id: string, field: Field, value: string): (r: seq<NavItem>)
    ensures |r| == |items|
    ensures forall k :: 0 <= k < |items| ==> r[k].id == items[k].id
    ensures forall k :: 0 <= k < |items| && items[k].id != id ==> r[k] == items[k]
    ensures forall k :: 0 <= k < |items| && items[k].id == id ==>
      FieldOf(r[k], field) == value && FieldOf(r[k], OtherField(field)) == FieldOf(items[k], OtherField(field))
  {
    seq(|items|, k requires 0 <= k < |items| =>
      if items[k].id == id then SetField(items[k], field, value) else items[k])
  }

  /**
   Changing a field never touches ids, so it keeps ids unique and keeps a
   dense list dense (unlike the as-written add after a removal).
   */
  lemma ChangeItemKeepsIds(items: seq<NavItem>, id: string, field: Field, value: string)
    ensures UniqueIds(items) ==> UniqueIds(ChangeItem(items, id, field, value))
    ensures DenseIds(items) ==> DenseIds(ChangeItem(items, id, field, value))
  {
  }

  /** `removeNavItem`: every item with the id goes; the rest stay. */
  function RemoveItem(items: seq<NavItem>, id: string): (r: seq<NavItem>)
    ensures forall x :: x in r <==> x in items && x.id != id
  {
    Seqs.Filter(items, (x: NavItem) => x.id != id)
  }

  /** Removal keeps the survivors in order: it distributes over concatenation and keeps or drops single items. */
  lemma RemoveItemKeepsOrder(a: seq<NavItem>, b: seq<NavItem>, id: string)
    ensures RemoveItem(a + b, id) == RemoveItem(a, id) + RemoveItem(b, id)
    ensures forall x: NavItem :: RemoveItem([x], id) == if x.id != id then [x] else []
  {
    var keep := (x: NavItem) => x.id != id;
    Seqs.FilterAppend(a, b, keep);
    forall x: NavItem
      ensures RemoveItem([x], id) == if x.id != id then [x] else []
    {
      Seqs.FilterSingleton(x, keep);
    }
  }

  /** The item `addNavItem` appends, given its id. */
  function NewItem(id: string): NavItem
  {
    NavItem(id, "#new", "New Item")
  }

  /** `addNavItem` as written: the new id is the decimal text of the list length plus one. */
  function AddItem(items: seq<NavItem>): (r: seq<NavItem>)
    ensures Seqs.Appended(items, r, NewItem(JsStrings.DecimalString(|items| + 1)))
  {
    items + [NewItem(JsStrings.DecimalString(|items| + 1))]
  }

  /** On a list nobody has removed from, the length-based id is fresh and the list stays dense. */
  lemma AddKeepsDenseIds(items: seq<NavItem>)
    requires DenseIds(items)
    ensures DenseIds(AddItem(items)) && UniqueIds(AddItem(items))
  {
    DenseIdsAreUnique(AddItem(items));
  }

  /**
   After a removal the length-based id can already be taken: deleting "1"
   from the defaults and adding an item yields two items with id "5", and
   relabelling the new one relabels "Contact" too.
   */
  lemma AddAfterRemoveDuplicatesId()
    ensures var items := AddItem(RemoveItem(DefaultItems(), "1"));
      && |items| == 5
      && items[3] == NavItem("5", "#contact", "Contact")
      && items[4] == NavItem("5", "#new", "New Item")
      && !UniqueIds(items)
      && ChangeItem(items, "5", Label, "Blog")[3].labelText == "Blog"
  {
    RemoveFirstDefault();
    var items := AddItem(DefaultItems()[1..]);
    assert JsStrings.DecimalString(5) == "5";
    assert items[3] == NavItem("5", "#contact", "Contact");
    assert items[4] == NavItem("5", "#new", "New Item");
  }

  /** Removing the id of the first item, when no other item has it, drops just that item. */
  lemma RemoveLeadingItem(items: seq<NavItem>, id: string)
    requires |items| > 0 && items[0].id == id
    requires forall k :: 1 <= k < |items| ==> items[k].id != id
    ensures RemoveItem(items, id) == items[1..]
  {
    Seqs.FilterKeepsAll(items[1..], (x: NavItem) => x.id != id);
  }

  /** Removing "1" from the defaults leaves the other four in order. */
  lemma RemoveFirstDefault()
    ensures RemoveItem(DefaultItems(), "1") == DefaultItems()[1..]
  {
    var d := DefaultItems();
    assert d[1].id == "2" && d[2].id == "3" && d[3].id == "4" && d[4].id == "5";
    RemoveLeadingItem(d, "1");
  }

  /** The largest id that reads as a decimal number, or 0 when none does. */
  function MaxNumericId(items: seq<NavItem>): (m: nat)
    ensures forall k :: 0 <= k < |items| && JsStrings.ParseDecimal(items[k].id).Some? ==>
      JsStrings.ParseDecimal(items[k].id).value <= m
  {
    if |items| == 0 then 0
    else
      var rest := MaxNumericId(items[..|items| - 1]);
      assert forall k :: 0 <= k < |items| - 1 ==> items[..|items| - 1][k] == items[k];
      match JsStrings.ParseDecimal(items[|items| - 1].id)
      case Some(v) => if v > rest then v else rest
      case None => rest
  }

  /** On ids "1" … "n" the largest numeric id is n. */
  lemma {:induction false} MaxNumericIdOfDense(items: seq<NavItem>)
    requires DenseIds(items)
    ensures MaxNumericId(items) == |items|
  {
    if |items| > 0 {
      var init := items[..|items| - 1];
      assert DenseIds(init) by {
        assert forall k :: 0 <= k < |init| ==> init[k] == items[k];
      }
      MaxNumericIdOfDense(init);
      JsStrings.ParseDecimalString(|items|);
    }
  }

  /** `addNavItem` with an id one past the largest numeric id, which no item can hold. */
  function AddItemFresh(items: seq<NavItem>): (r: seq<NavItem>)
    ensures |r| == |items| + 1
    ensures Seqs.Appended(items, r, NewItem(r[|items|].id))
    ensures forall k :: 0 <= k < |items| ==> items[k].id != r[|items|].id
  {
    var n := MaxNumericId(items) + 1;
    var id := JsStrings.DecimalString(n);
    JsStrings.ParseDecimalString(n);
    items + [NewItem(id)]
  }

  /** The fresh-id add keeps ids unique on every list, removals or not. */
  lemma AddItemFreshKeepsUniqueIds(items: seq<NavItem>)
    requires UniqueIds(items)
    ensures UniqueIds(AddItemFresh(items))
  {
  }

  /** On a list nobody has removed from, the fresh-id add and the as-written add agree. */
  lemma AddItemFreshAgreesOnDense(items: seq<NavItem>)
    requires DenseIds(items)
    ensures AddItemFresh(items) == AddItem(items)
  {
    MaxNumericIdOfDense(items);
  }
}

=== FILE: new_project_form.dfy ===
/**
 The "Add New Project" form: a draft project without an id, and the tag
 editor under it (a pending tag input, an Add button and a remove button
 on each tag).
 */
module NewProjectForm {
  import Seqs
  import JsStrings

  /** The project being drafted; the server assigns the id on submit. */
  datatype Draft = Draft(
    title: string,
    description: string,
    image: string,
    tags: seq<string>,
    link: string)

  /** The form's state: the draft and the text in the tag input box. */
  datatype Form = Form(draft: Draft, newTag: string)

  /** The form as first rendered. */
  function InitialForm(): (f: Form)
    ensures f.draft.title == "" && f.draft.description == "" && f.draft.image == "" && f.draft.link == ""
    ensures f.draft.tags == [] && f.newTag == ""
  {
    Form(Draft("", "", "", [], ""), "")
  }

  /** The fields a tag edit must leave alone. */
  predicate SameDetails(a: Draft, b: Draft)
  {
    a.title == b.title && a.description == b.description && a.image == b.image && a.link == b.link
  }

  /**
   `handleAddTag`: a blank input changes nothing (not even the input box);
   otherwise the trimmed text is appended and the input box is cleared.
   */
  function AddTag(f: Form): (r: Form)
    ensures JsStrings.AllWhitespace(f.newTag) ==> r == f
    ensures !JsStrings.AllWhitespace(f.newTag) ==>
      && SameDetails(f.draft, r.draft)
      && r.newTag == ""
      && Seqs.Appended(f.draft.tags, r.draft.tags, JsStrings.Trim(f.newTag))
    ensures !JsStrings.AllWhitespace(f.newTag) ==> |JsStrings.Trim(f.newTag)| > 0
  {
    JsStrings.TrimEmptyIffBlank(f.newTag);
    var tag := JsStrings.Trim(f.newTag);
    if tag == [] then f
    else Form(f.draft.(tags := f.draft.tags + [tag]), "")
  }

  /** `handleRemoveTag`: every tag equal to the given one goes, the others keep their order and count. */
  function RemoveTag(d: Draft, tagToRemove: string): (r: Draft)
    ensures SameDetails(d, r)
    ensures tagToRemove !in r.tags
    ensures forall t :: t in r.tags <==> t in d.tags && t != tagToRemove
  {
    d.(tags := Seqs.Filter(d.tags, (t: string) => t != tagToRemove))
  }

  /**
   Removing a tag keeps every other tag with all its copies, removes every
   copy of the chosen one, and preserves relative order (it distributes
   over concatenation).
   */
  lemma RemoveTagCounts(d: Draft, tagToRemove: string, t: string)
    ensures multiset(RemoveTag(d, tagToRemove).tags)[t] == if t == tagToRemove then 0 else multiset(d.tags)[t]
    ensures forall a, b :: d.tags == a + b ==>
      RemoveTag(d, tagToRemove).tags == RemoveTag(d.(tags := a), tagToRemove).tags + RemoveTag(d.(tags := b), tagToRemove).tags
  {
    var keep := (s: string) => s != tagToRemove;
    Seqs.FilterCount(d.tags, keep, t);
    forall a, b | d.tags == a + b
      ensures Seqs.Filter(d.tags, keep) == Seqs.Filter(a, keep) + Seqs.Filter(b, keep)
    {
      Seqs.FilterAppend(a, b, keep);
    }
  }

  /**
   Removing the trimmed input after pressing Add restores the tag list,
   when that tag was not there before (for a blank input nothing was added
   and nothing is removed).
   */
  lemma AddThenRemove(f: Form)
    requires JsStrings.Trim(f.newTag) !in f.draft.tags
    ensures RemoveTag(AddTag(f).draft, JsStrings.Trim(f.newTag)) == f.draft
  {
    var tag := JsStrings.Trim(f.newTag);
    var keep := (s: string) => s != tag;
    Seqs.FilterKeepsAll(f.draft.tags, keep);
    if !JsStrings.AllWhitespace(f.newTag) {
      assert AddTag(f).draft.tags == f.draft.tags + [tag];
      Seqs.FilterAppend(f.draft.tags, [tag], keep);
      Seqs.FilterSingleton(tag, keep);
    }
  }
}

=== FILE: project_store.dfy ===
/**
 The projects REST handler: the list of portfolio projects kept in
 `projects.json`, and the POST / PUT / DELETE operations on it, with the
 file read and write replaced by the list passed in and the list returned.
 */
module ProjectStore {
  import Seqs

  datatype Project = Project(
    id: int,
    title: string,
    description: string,
    image: string,
    tags: seq<string>,
    link: string)

  /** What a handler sends back. */
  datatype Body =
    | ProjectBody(project: Project)
    | ErrorBody(message: string)
    | SuccessBody

  /** A handler's effect: the HTTP status, the list left in the file, and the response body. */
  datatype Reply = Reply(status: int, stored: seq<Project>, body: Body)

  const OkStatus: int := 200
  const NotFoundStatus: int := 404

  /** No two projects share an id. */
  predicate UniqueIds(ps: seq<Project>)
  {
    forall i, j :: 0 <= i < j < |ps| ==> ps[i].id != ps[j].id
  }

  predicate HasId(ps: seq<Project>, id: int)
  {
    exists k :: 0 <= k < |ps| && ps[k].id == id
  }

  /** `Math.max(...ids, 0)`: the largest id, or 0 when the list is empty or every id is negative. */
  function MaxId(ps: seq<Project>): (m: int)
    ensures m >= 0
    ensures forall k :: 0 <= k < |ps| ==> ps[k].id <= m
    ensures m == 0 || HasId(ps, m)
  {
    if |ps| == 0 then 0
    else
      var rest := MaxId(ps[1..]);
      if ps[0].id > rest then ps[0].id
      else
        assert forall k :: 1 <= k < |ps| ==> ps[k] == ps[1..][k - 1];
        rest
  }

  /** The id POST allocates: larger than every id present, and 1 for an empty list. */
  function NextId(ps: seq<Project>): (n: int)
    ensures n >= 1
    ensures forall k :: 0 <= k < |ps| ==> ps[k].id < n
    ensures |ps| == 0 ==> n == 1
    ensures n == 1 || HasId(ps, n - 1)
  {
    MaxId(ps) + 1
  }

  /** POST: the body gets the next id and is appended; the stored project is echoed back. */
  function Post(ps: seq<Project>, newProject: Project): (r: Reply)
    ensures r.status == OkStatus && r.body.ProjectBody?
    ensures r.body.project == newProject.(id := r.body.project.id)
    ensures r.body.project.id == NextId(ps)
    ensures !HasId(ps, r.body.project.id) && r.body.project.id >= 1
    ensures Seqs.Appended(ps, r.stored, r.body.project)
  {
    var p := newProject.(id := NextId(ps));
    Reply(OkStatus, ps + [p], ProjectBody(p))
  }

  /** `findIndex`: the first position holding `id`, or -1 when none does. */
  function FindIndex(ps: seq<Project>, id: int): (r: int)
    ensures -1 <= r < |ps|
    ensures r == -1 <==> !HasId(ps, id)
    ensures r >= 0 ==> ps[r].id == id && forall k :: 0 <= k < r ==> ps[k].id != id
  {
    if |ps| == 0 then -1
    else if ps[0].id == id then 0
    else
      var k := FindIndex(ps[1..], id);
      assert forall j :: 1 <= j < |ps| ==> ps[j] == ps[1..][j - 1];
      if k == -1 then -1 else k + 1
  }

  /**
   PUT: 404 and an untouched file when no project carries the body's id;
   otherwise the first project with that id is overwritten by the body.
   */
  function Put(ps: seq<Project>, updated: Project): (r: Reply)
    ensures r.status == NotFoundStatus <==> !HasId(ps, updated.id)
    ensures r.status == NotFoundStatus ==> r.stored == ps && r.body == ErrorBody("Project not found")
    ensures r.status != NotFoundStatus ==>
      && r.status == OkStatus
      && r.body == ProjectBody(updated)
      && exists i :: 0 <= i < |ps| && ps[i].id == updated.id
                     && (forall k :: 0 <= k < i ==> ps[k].id != updated.id)
                     && Seqs.Replaced(ps, r.stored, i, updated)
  {
    var index := FindIndex(ps, updated.id);
    if index == -1 then Reply(NotFoundStatus, ps, ErrorBody("Project not found"))
    else Reply(OkStatus, Seqs.ReplaceAt(ps, index, updated), ProjectBody(updated))
  }

  /** DELETE: every project with the id goes; success is reported whether or not one existed. */
  function Delete(ps: seq<Project>, id: int): (r: Reply)
    ensures r.status == OkStatus && r.body == SuccessBody
    ensures forall p :: p in r.stored <==> p in ps && p.id != id
  {
    Reply(OkStatus, Seqs.Filter(ps, (p: Project) => p.id != id), SuccessBody)
  }

  /** The id POST assigns depends only on the stored list, never on the id the client sent. */
  lemma PostIgnoresClientId(ps: seq<Project>, a: Project, b: Project)
    ensures Post(ps, a).body.project.id == Post(ps, b).body.project.id
  {
  }

  /**
   DELETE keeps the survivors in their old order (it distributes over
   concatenation and keeps or drops each single project) and keeps every
   copy of every project whose id differs.
   */
  lemma DeleteKeepsOrder(a: seq<Project>, b: seq<Project>, id: int)
    ensures Delete(a + b, id).stored == Delete(a, id).stored + Delete(b, id).stored
    ensures forall p: Project :: Delete([p], id).stored == if p.id != id then [p] else []
    ensures forall p: Project :: p.id != id ==> multiset(Delete(a, id).stored)[p] == multiset(a)[p]
  {
    Seqs.FilterAppend(a, b, (p: Project) => p.id != id);
    forall p: Project
      ensures Delete([p], id).stored == if p.id != id then [p] else []
    {
      Seqs.FilterSingleton(p, (p: Project) => p.id != id);
    }
    forall p: Project | p.id != id
      ensures multiset(Delete(a, id).stored)[p] == multiset(a)[p]
    {
      Seqs.FilterCount(a, (p: Project) => p.id != id, p);
    }
  }

  /** DELETE on a list grown by one project: the old survivors, then the new project if it survives. */
  lemma DeleteSnoc(a: seq<Project>, p: Project, id: int)
    ensures Delete(a + [p], id).stored == Delete(a, id).stored + (if p.id != id then [p] else [])
  {
    Seqs.FilterAppend(a, [p], (q: Project) => q.id != id);
    Seqs.FilterSingleton(p, (q: Project) => q.id != id);
  }

  /** Deleting an id nobody has leaves the list as it was. */
  lemma DeleteAbsentIsIdentity(ps: seq<Project>, id: int)
    requires !HasId(ps, id)
    ensures Delete(ps, id).stored == ps
  {
    Seqs.FilterKeepsAll(ps, (p: Project) => p.id != id);
  }

  /** A repeated DELETE of the same id changes nothing more. */
  lemma DeleteIdempotent(ps: seq<Project>, id: int)
    ensures Delete(Delete(ps, id).stored, id).stored == Delete(ps, id).stored
  {
    Seqs.FilterIdempotent(ps, (p: Project) => p.id != id);
  }

  /** POST keeps ids unique. */
  lemma PostPreservesUniqueIds(ps: seq<Project>, newProject: Project)
    requires UniqueIds(ps)
    ensures UniqueIds(Post(ps, newProject).stored)
  {
  }

  /** PUT keeps ids unique: the replacement carries the id of the project it replaces. */
  lemma PutPreservesUniqueIds(ps: seq<Project>, updated: Project)
    requires UniqueIds(ps)
    ensures UniqueIds(Put(ps, updated).stored)
  {
    var r := Put(ps, updated);
    if r.status != NotFoundStatus {
      var i :| 0 <= i < |ps| && ps[i].id == updated.id && Seqs.Replaced(ps, r.stored, i, updated);
      assert forall k :: 0 <= k < |ps| ==> r.stored[k].id == ps[k].id;
    }
  }

  /** A filtered list of distinct ids still has distinct ids. */
  lemma {:induction false} FilterPreservesUniqueIds(ps: seq<Project>, keep: Project -> bool)
    requires UniqueIds(ps)
    ensures UniqueIds(Seqs.Filter(ps, keep))
  {
    if |ps| > 0 {
      var rest := Seqs.Filter(ps[1..], keep);
      FilterPreservesUniqueIds(ps[1..], keep);
      assert forall k :: 0 <= k < |rest| ==> rest[k] in ps[1..];
      assert forall k :: 1 <= k < |ps| ==> ps[k].id != ps[0].id;
      forall q | q in ps[1..]
        ensures q.id != ps[0].id
      {
        var j :| 0 <= j < |ps[1..]| && ps[1..][j] == q;
        assert ps[j + 1] == q;
      }
    }
  }

  /** DELETE keeps ids unique. */
  lemma DeletePreservesUniqueIds(ps: seq<Project>, id: int)
    requires UniqueIds(ps)
    ensures UniqueIds(Delete(ps, id).stored)
  {
    FilterPreservesUniqueIds(ps, (p: Project) => p.id != id);
  }
}

=== FILE: projects_admin.dfy ===
/**
 The project list screen of the admin area: it loads the projects once,
 and after the server confirms a delete it drops the project from its own
 copy of the list.
 */
module ProjectsAdmin {
  import opened Wrappers
  import ProjectStore

  type Project = ProjectStore.Project

  /** The screen's state: the local list, the loading flag and the error banner. */
  datatype Page = Page(projects: seq<Project>, loading: bool, error: Option<string>)

  /** Before the first fetch: no projects, still loading, no error. */
  function InitialPage(): (p: Page)
    ensures p.projects == [] && p.loading && p.error.None?
  {
    Page([], true, None)
  }

  /** The outcome of the GET request: a failure, or a payload whose `projects` may be missing. */
  datatype Fetched = FetchFailed | Loaded(projects: Option<seq<Project>>)

  /** The fetch effect: `setProjects(data.projects || [])`, or the error banner on failure. */
  function AfterFetch(page: Page, fetched: Fetched): (r: Page)
    ensures !r.loading
    ensures fetched.FetchFailed? ==> r.error.Some? && r.projects == page.projects
    ensures fetched.Loaded? ==> r.error.None?
    ensures fetched == Loaded(None) ==> r.projects == []
    ensures fetched.Loaded? && fetched.projects.Some? ==> r.projects == fetched.projects.value
  {
    match fetched
    case FetchFailed =>
      page.(loading := false, error := Some("Failed to load projects. Please try again later."))
    case Loaded(projects) =>
      page.(projects := projects.GetOr([]), loading := false, error := None)
  }

  /**
   `projects.filter(p => p.id !== projectId)` on the client's copy: the
   same list the DELETE handler leaves in the file when given that copy.
   */
  method DropProject(projects: seq<Project>, projectId: int) returns (r: seq<Project>)
    ensures r == ProjectStore.Delete(projects, projectId).stored
    ensures forall k :: 0 <= k < |r| ==> r[k].id != projectId
  {
    r := [];
    var i := 0;
    while i < |projects|
      invariant 0 <= i <= |projects|
      invariant r == ProjectStore.Delete(projects[..i], projectId).stored
    {
      ProjectStore.DeleteSnoc(projects[..i], projects[i], projectId);
      assert projects[..i + 1] == projects[..i] + [projects[i]];
      if projects[i].id != projectId {
        r := r + [projects[i]];
      }
      i := i + 1;
    }
    assert projects[..|projects|] == projects;
    assert forall k :: 0 <= k < |r| ==> r[k] in r;
  }

  /**
   `handleDelete`: nothing changes unless the user confirms and the server
   answers ok; then the local list loses exactly the projects the server
   deleted, keeping the rest in order.
   */
  method HandleDelete(page: Page, projectId: int, confirmed: bool, responseOk: bool) returns (r: Page)
    ensures !confirmed || !responseOk ==> r == page
    ensures confirmed && responseOk ==>
      r == page.(projects := ProjectStore.Delete(page.projects, projectId).stored)
    ensures confirmed && responseOk ==> forall k :: 0 <= k < |r.projects| ==> r.projects[k].id != projectId
  {
    if !confirmed || !responseOk {
      return page;
    }
    var updated := DropProject(page.projects, projectId);
    r := page.(projects := updated);
  }
}

=== FILE: seqs.dfy ===
/**
 The list primitives the editors and route handlers are built from:
 `Array.prototype.filter` by a predicate on the element, and the two
 index-based edits the admin forms perform on a copied array
 (`copy[i] = x` and `filter((_, k) => k !== i)`).
 */
module Seqs {

  /** `s.filter(keep)`: the elements that satisfy `keep`, in their original order. */
  function Filter<T(==,!new)>(s: seq<T>, keep: T -> bool): (r: seq<T>)
    ensures |r| <= |s|
    ensures forall x :: x in r <==> x in s && keep(x)
  {
    if |s| == 0 then []
    else
      var rest := Filter(s[1..], keep);
      assert s == [s[0]] + s[1..];
      if keep(s[0]) then [s[0]] + rest else rest
  }

  /** Filtering commutes with concatenation; with FilterSingleton this fixes the order of the result. */
  lemma {:induction false} FilterAppend<T(!new)>(a: seq<T>, b: seq<T>, keep: T -> bool)
    ensures Filter(a + b, keep) == Filter(a, keep) + Filter(b, keep)
  {
    if |a| == 0 {
      assert a + b == b;
    } else {
      var h := if keep(a[0]) then [a[0]] else [];
      calc {
        Filter(a + b, keep);
        { assert (a + b)[0] == a[0]; assert (a + b)[1..] == a[1..] + b; }
        h + Filter(a[1..] + b, keep);
        { FilterAppend(a[1..], b, keep); }
        h + (Filter(a[1..], keep) + Filter(b, keep));
        (h + Filter(a[1..], keep)) + Filter(b, keep);
      }
    }
  }

  /** Every kept value keeps all its copies; every dropped value loses all of them. */
  lemma {:induction false} FilterCount<T(!new)>(s: seq<T>, keep: T -> bool, x: T)
    ensures multiset(Filter(s, keep))[x] == if keep(x) then multiset(s)[x] else 0
  {
    if |s| > 0 {
      FilterCount(s[1..], keep, x);
      assert s == [s[0]] + s[1..];
    }
  }

  /** A one-element list is kept or dropped as a whole. */
  lemma FilterSingleton<T(!new)>(x: T, keep: T -> bool)
    ensures Filter([x], keep) == if keep(x) then [x] else []
  {
    assert [x][1..] == [];
  }

  /** When every element is kept the list comes back unchanged. */
  lemma {:induction false} FilterKeepsAll<T(!new)>(s: seq<T>, keep: T -> bool)
    requires forall k :: 0 <= k < |s| ==> keep(s[k])
    ensures Filter(s, keep) == s
  {
    if |s| > 0 {
      FilterKeepsAll(s[1..], keep);
      assert s == [s[0]] + s[1..];
    }
  }

  /** Filtering twice by the same predicate changes nothing the second time. */
  lemma FilterIdempotent<T(!new)>(s: seq<T>, keep: T -> bool)
    ensures Filter(Filter(s, keep), keep) == Filter(s, keep)
  {
    var r := Filter(s, keep);
    forall k | 0 <= k < |r|
      ensures keep(r[k])
    {
      assert r[k] in r;
    }
    FilterKeepsAll(r, keep);
  }

  /** `b` is `a` with `x` pushed on the end. */
  predicate Appended<T(==)>(a: seq<T>, b: seq<T>, x: T)
  {
    && |b| == |a| + 1
    && b[|a|] == x
    && forall k :: 0 <= k < |a| ==> b[k] == a[k]
  }

  /** `b` is `a` with position `i` overwritten by `x` and every other position untouched. */
  predicate Replaced<T(==)>(a: seq<T>, b: seq<T>, i: int, x: T)
  {
    && 0 <= i < |a|
    && |b| == |a|
    && b[i] == x
    && forall k :: 0 <= k < |a| && k != i ==> b[k] == a[k]
  }

  /** `b` is `a` without position `i`: earlier elements stay put, later ones move down by one. */
  predicate Removed<T(==)>(a: seq<T>, b: seq<T>, i: int)
  {
    && 0 <= i < |a|
    && |b| == |a| - 1
    && (forall k :: 0 <= k < i ==> b[k] == a[k])
    && (forall k :: i <= k < |b| ==> b[k] == a[k + 1])
  }

  /** `copy = [...s]; copy[i] = x` on an index the form rendered. */
  function ReplaceAt<T(==)>(s: seq<T>, i: nat, x: T): (r: seq<T>)
    requires i < |s|
    ensures Replaced(s, r, i, x)
    ensures multiset(r) == multiset(s) - multiset{s[i]} + multiset{x}
  {
    s[i := x]
  }

  /** `s.filter((_, k) => k !== i)`: drops position `i` only, whatever the other elements hold. */
  function RemoveAt<T(==)>(s: seq<T>, i: nat): (r: seq<T>)
    requires i < |s|
    ensures Removed(s, r, i)
    ensures multiset(r) == multiset(s) - multiset{s[i]}
  {
    assert s == s[..i] + [s[i]] + s[i + 1..];
    s[..i] + s[i + 1..]
  }

  /** Removal by position keeps an equal copy held elsewhere, unlike removal by value. */
  lemma RemoveAtKeepsDuplicates<T>(s: seq<T>, i: nat, j: nat)
    requires i < |s| && j < |s| && i != j && s[i] == s[j]
    ensures s[i] in RemoveAt(s, i)
  {
    var r := RemoveAt(s, i);
    if j < i {
      assert r[j] == s[j];
    } else {
      assert r[j - 1] == s[j];
    }
  }
}

=== FILE: wrappers.dfy ===
/** Option, the shape of a JavaScript value that may be `undefined`. */
module Wrappers {

  datatype Option<+T> = None | Some(value: T) {

    /** The value, or `default` when absent (the `??` operator). */
    function GetOr(default: T): T {
      match this
      case Some(v) => v
      case None => default
    }
  }
}
